=== FILE: README.md ===
# Soda.Migrations reconciliation and apply engine, in Dafny

This project models the control logic of `SodaMigrationService<TDbContext>` and
the `EFMigrationsHistory` ledger entry of Soda.Migrations. The service
compares the migrations an assembly declares for one DbContext (the *catalog*)
with the `__EFMigrationsHistory` table (the *ledger*). It finds the last
applied version and the pending migrations. It applies those migrations under
three failure policies. It then backfills the ledger with local migrations at
or below the baseline that were never recorded.

Everything is pure: immutable datatypes and functions over sequences.

- **Catalog**: a `seq<Descriptor>`. A descriptor is a migration id plus the
  two attribute flags (`TryMigration`, `SkipMigration`).
  `EffectivePolicy` resolves the flags the way the apply loop tests them.
- **Ledger**: a `seq<Record>` in insertion order.
- **Schema executor** (`IMigrator.MigrateAsync`): an oracle
  `Executor = string -> bool`, true when migrating to that id succeeds. On
  success the model appends `Record(id, version)`. This stands in for EF
  Core's own history write.
- **Product version** (`GetEfVersion`): a constant `version` parameter.
- A raised `MigrationException` is modelled as a result value: `Aborted` for
  the batch, `Halted` for startup.

Modules follow the source structure:

| file | module | models |
|---|---|---|
| `ordinal.dfy` | `Ordinal` | the sign of `String.CompareOrdinal`, with flip and transitivity lemmas |
| `seqs.dfy` | `Seqs` | LINQ `Where` as `Filter` |
| `history.dfy` | `History` | `EFMigrationsHistory`: id, product version, `Sort` key, key uniqueness |
| `catalog.dfy` | `Catalog` | migration descriptors, policy precedence, `GetLocalMigrations`, `OrderBy(id)` |
| `reconcile.dfy` | `Reconcile` | `GetLastVersion`, `GetPendingMigrationsAsync`, `DiscardNoPendingMigrationsHistoryAsync` |
| `apply.dfy` | `Apply` | both `ApplyMigrationsAsync` overloads |
| `startup.dfy` | `Startup` | `StartupInitMigrationsAsync` |

## The naming convention and what happens without it

`GetLastVersion` picks the maximum *sort key*, the id prefix before the
first `_`. `GetPendingMigrationsAsync` then compares *whole ids* with that
version's id. The two orders agree only when ordering ids also orders their
sort keys strictly. `Reconcile.SortMonotone` states this condition. It holds,
for example, for timestamps of one fixed width with no two in the same
second.

- Under the condition, the model proves:
  - no pending migration is already applied (`PendingIsUnapplied`);
  - a finished startup records every catalog migration (`StartupCoversCatalog`);
  - startup keeps the ledger key unique (`StartupKeepsKeysUnique`);
  - a second startup does nothing (`StartupIsIdempotent`).
- Without the condition, `PendingMayHoldApplied` shows a concrete catalog and
  ledger whose pending set holds an applied migration. The ids are `2023_a`
  and `20230_b`: the sort key `2023` sorts below `20230`, but `_` sorts after
  `0`.
- The same ids can also leave a migration unrecorded for good. Take the
  catalog `[2023_a, 20230_b]` with only `2023_a` in the ledger. Then `20230_b`
  is not pending: its id is ordinally below `2023_a`. It is not backfilled
  either: its sort key `20230` is above `2023`. So every startup returns the
  ledger unchanged and never records `20230_b` (`NewerNeverRecorded`). This is
  why `StartupCoversCatalog` needs the condition on a non-empty ledger.

## Behaviour of the code worth knowing

- `GetPendingMigrationsAsync` returns the catalog in catalog order, unsorted,
  when no last version exists (`SodaMigrationService.cs:119-120`). Strict
  ascending order is proved only when a last version exists
  (`PendingStrictlyAscending`).
- `GetLastVersion` and the pending order use `MaxBy`/`OrderBy` with .NET's
  default string comparer (`SodaMigrationService.cs:108, 125`). The
  backfill filter and the pending filter use `CompareOrdinal`
  (`SodaMigrationService.cs:86, 122`). The model uses the ordinal order
  throughout.
- A migration tagged both `TryMigration` and `SkipMigration` behaves as a
  try-migration, because that attribute is tested first
  (`SodaMigrationService.cs:153, 181`).
- `StartupInitMigrationsAsync` runs the apply pass only when the ledger is
  non-empty at start. It then runs the backfill unless the apply pass raised
  (`SodaMigrationService.cs:316-323`). On an empty ledger, startup therefore
  records the whole catalog without executing anything.

## Model

| member | source | states |
|---|---|---|
| Ordinal.Compare | src/Soda.Migrations/Services/SodaMigrationService.cs:86 | the ordinal comparison's sign is -1, 0 or 1, and 0 exactly when the two strings are equal |
| Ordinal.CompareTransitive | src/Soda.Migrations/Services/SodaMigrationService.cs:122-125 | the ordinal "sorts no later than" relation used for ids and sort keys is transitive |
| History.SortKey | src/Soda.Migrations/Domain/EFMigrationsHistory.cs:17 | the sort key is a prefix of the id, contains no `_`, and is followed in the id by `_` whenever it is shorter than the id |
| History.SortKeyShape | src/Soda.Migrations/Domain/EFMigrationsHistory.cs:17 | an id without `_` is its own sort key; an id with `_` is its sort key, `_`, and a rest; the key is never longer than the id |
| History.SortKeyIdempotent | src/Soda.Migrations/Domain/EFMigrationsHistory.cs:17 | taking the sort key of a sort key returns it unchanged |
| History.UniqueKeysAppend | src/Soda.Migrations/Domain/EFMigrationsHistory.cs:9-11 | appending entries whose keys are distinct and absent from the ledger keeps `MigrationId` a key |
| Catalog.EffectivePolicy | src/Soda.Migrations/Services/SodaMigrationService.cs:153-200 | try-migration exactly when the `TryMigration` attribute is present; skip exactly when only `SkipMigration` is; otherwise normal |
| Catalog.SortById | src/Soda.Migrations/Services/SodaMigrationService.cs:125 | the result is in ascending id order and is a permutation of the input |
| Catalog.AscendingDistinctIsStrict | src/Soda.Migrations/Services/SodaMigrationService.cs:125 | with unique ids, ascending id order is strictly ascending |
| Reconcile.MaxBySort | src/Soda.Migrations/Services/SodaMigrationService.cs:108 | no result exactly for an empty input; otherwise an element of the input whose sort key is at least every element's sort key |
| Reconcile.LastVersion | src/Soda.Migrations/Services/SodaMigrationService.cs:100-109 | none exactly when no ledger id is a local id; otherwise a ledger entry with a local id whose sort key is maximal among ledger entries with local ids |
| Reconcile.Pending | src/Soda.Migrations/Services/SodaMigrationService.cs:115-126 | without a last version the whole catalog unchanged; otherwise ascending by id, holding exactly the local migrations whose id is ordinally above the last id |
| Reconcile.PendingCounts | src/Soda.Migrations/Services/SodaMigrationService.cs:121-125 | with a last version, each newer migration occurs in the pending set exactly as often as in the catalog, every other one not at all: the sort is a permutation of the filtered catalog |
| Reconcile.PendingWithinCatalog | src/Soda.Migrations/Services/SodaMigrationService.cs:115-126 | the pending set never holds a migration more often than the catalog does |
| Reconcile.PendingStrictlyAscending | src/Soda.Migrations/Services/SodaMigrationService.cs:119-125 | with unique catalog ids and a last version, pending ids strictly increase |
| Reconcile.PendingIsUnapplied | src/Soda.Migrations/Services/SodaMigrationService.cs:100-125 | when id order agrees with sort-key order, no pending migration's id is in the ledger |
| Reconcile.NewerIsUnapplied | src/Soda.Migrations/Services/SodaMigrationService.cs:100-125 | under the convention, a catalog migration ordinally above the last version has no ledger entry |
| Reconcile.ExampleLastVersion | src/Soda.Migrations/Services/SodaMigrationService.cs:104-108 | for the ledger `2023_a`, `20230_b` the last version is `20230_b`, the entry with the greater sort key |
| Reconcile.PendingMayHoldApplied | src/Soda.Migrations/Services/SodaMigrationService.cs:104-125 | for ids `2023_a` and `20230_b`, both applied, the pending set is `[2023_a]`, an applied migration |
| Reconcile.NewerNeitherPendingNorBackfilled | src/Soda.Migrations/Services/SodaMigrationService.cs:84-125 | for catalog `[2023_a, 20230_b]` and only `2023_a` applied, the pending set and the backfill selection are both empty while `20230_b` is unapplied |
| Startup.NewerNeverRecorded | src/Soda.Migrations/Services/SodaMigrationService.cs:311-325 | on that catalog and ledger a startup calls no migration and returns the ledger unchanged, so `20230_b` stays unrecorded |
| Reconcile.PrefixKeysBreakConvention | src/Soda.Migrations/Domain/EFMigrationsHistory.cs:17 | that example's catalog violates the sort-key convention |
| Reconcile.Backfill | src/Soda.Migrations/Services/SodaMigrationService.cs:78-86 | without a last version every local migration; otherwise exactly the local entries whose sort key is at or below the last version's and whose id is not applied |
| Reconcile.Discard | src/Soda.Migrations/Services/SodaMigrationService.cs:84-93 | the ledger is only appended to; nothing is written for an empty selection; the result holds exactly the old entries and the selection |
| Reconcile.BackfillIsFresh | src/Soda.Migrations/Services/SodaMigrationService.cs:84-86 | no backfilled id is already in the ledger, with or without a last version |
| Reconcile.BackfillKeysUnique | src/Soda.Migrations/Services/SodaMigrationService.cs:84-92 | with unique catalog ids the backfill never holds one id twice |
| Reconcile.BackfillIdempotent | src/Soda.Migrations/Services/SodaMigrationService.cs:80-93 | after the backfill is written, computing it again against the new ledger selects nothing |
| Apply.ApplyOne | src/Soda.Migrations/Services/SodaMigrationService.cs:228-305 | the executor is called unless the policy is skip; failure exactly for a normal migration whose call fails, then the ledger is unchanged; otherwise one entry for the id; the orchestrator writes it exactly for a skip or a failed try-migration |
| Apply.ApplyBatch | src/Soda.Migrations/Services/SodaMigrationService.cs:141-226 | an empty batch returns the ledger untouched with no call; the batch completes exactly when no normal migration fails; an abort is at the first such migration |
| Apply.CompletedBatch | src/Soda.Migrations/Services/SodaMigrationService.cs:150-225 | a completed batch appended one entry per migration in order, called the executor for exactly the non-skip migrations in order, and wrote exactly the skipped and failed try-migrations |
| Apply.AbortedBatchLedger | src/Soda.Migrations/Services/SodaMigrationService.cs:200-218 | an aborted batch keeps the entries of the migrations before the failure and adds none for the failed one |
| Apply.AbortedBatchCalls | src/Soda.Migrations/Services/SodaMigrationService.cs:200-218 | an aborted batch called the executor for the non-skip migrations up to the failed one and none after it |
| Apply.AbortedBatchWritten | src/Soda.Migrations/Services/SodaMigrationService.cs:200-218 | an aborted batch's own writes are those of the skipped and failed try-migrations before the failure |
| Apply.BatchEffects | src/Soda.Migrations/Services/SodaMigrationService.cs:143-218 | however a batch ends, the old ledger comes first, then one entry per migration handled before the failure (or all of them), with the executor calls and the orchestrator's writes of exactly those migrations |
| Apply.BatchExtendsLedger | src/Soda.Migrations/Services/SodaMigrationService.cs:141-226 | however the batch ends, the old ledger is a prefix of the new one |
| Apply.SkipNeverInvoked | src/Soda.Migrations/Services/SodaMigrationService.cs:181-199 | with unique ids, no skipped migration's id reaches the executor |
| Apply.TryOnlyBatchCompletes | src/Soda.Migrations/Services/SodaMigrationService.cs:153-180 | a batch of try-migrations never aborts, every migration gets an entry, and each failed one is written by the orchestrator |
| Apply.AbortLeavesFailedUnrecorded | src/Soda.Migrations/Services/SodaMigrationService.cs:200-218 | with unique ids, an abort adds no entry for the failed id and keeps an entry for every earlier migration |
| Apply.BatchAppendsOwnEntries | src/Soda.Migrations/Services/SodaMigrationService.cs:141-226 | everything the batch appends is an entry of one of its own migrations, stamped with the executor's version |
| Apply.AppendFreshRecords | src/Soda.Migrations/Domain/EFMigrationsHistory.cs:9-11 | appending the entries of distinct migrations absent from the ledger keeps `MigrationId` a key |
| Apply.BatchKeepsKeysUnique | src/Soda.Migrations/Services/SodaMigrationService.cs:141-226 | distinct, unrecorded migrations keep the ledger key unique however the batch ends |
| Startup.ApplyPass | src/Soda.Migrations/Services/SodaMigrationService.cs:314-321 | on an empty ledger nothing is applied or called; the pass completes exactly when the ledger was empty or no pending normal migration fails; an abort is at the first fatal pending migration k, after the calls up to k and with the entries before k; a completed pass on a non-empty ledger appended one entry per pending migration in order and called the executor for exactly the non-skip pending ones; the ledger is only appended to |
| Startup.Startup | src/Soda.Migrations/Services/SodaMigrationService.cs:311-325 | an empty ledger ends as the catalog's entries with no executor call; startup finishes exactly when the ledger was empty or no pending normal migration fails; a finish on a non-empty ledger made the pending batch's calls, holds its entries right after the old ones and then exactly the backfill selection on that ledger; after any finish nothing is left to backfill; a halt is at the first fatal pending migration, names it, made the calls up to it, holds the entries before it and skips the backfill |
| Startup.StartupCoversCatalog | src/Soda.Migrations/Services/SodaMigrationService.cs:311-325 | after a finished startup every catalog id is in the ledger (on a non-empty ledger, under the sort-key convention) |
| Startup.StartupKeepsKeysUnique | src/Soda.Migrations/Services/SodaMigrationService.cs:311-325 | with unique catalog ids and the convention, startup keeps `MigrationId` a key, however it ends |
| Startup.FreshLedgerBackfill | src/Soda.Migrations/Services/SodaMigrationService.cs:78-93 | on an empty ledger the backfill step writes exactly the catalog's entries |
| Startup.CompletedPassThenBackfill | src/Soda.Migrations/Services/SodaMigrationService.cs:316-323 | after a completed apply pass the backfill step keeps the old entries, then the pass's entries, then appends exactly the backfill selection, and leaves nothing more to backfill |
| Startup.CoveredLeavesNoBackfill | src/Soda.Migrations/Services/SodaMigrationService.cs:84-88 | when every catalog id is already in the ledger the backfill selects nothing |
| Startup.CoveredStartupIsQuiet | src/Soda.Migrations/Services/SodaMigrationService.cs:311-325 | under the convention, a ledger covering the catalog makes startup finish with no executor call and no write |
| Startup.ApplyPassAppendsCatalogEntries | src/Soda.Migrations/Services/SodaMigrationService.cs:314-321 | the apply pass appends only entries of catalog migrations |
| Startup.DiscardAppendsCatalogEntries | src/Soda.Migrations/Services/SodaMigrationService.cs:78-93 | the backfill step appends only entries of catalog migrations |
| Startup.StartupAppendsCatalogEntries | src/Soda.Migrations/Services/SodaMigrationService.cs:311-325 | whatever startup appends, however it ends, is an entry of a catalog migration with the executor's version |
| Startup.StartupKeepsWellFormed | src/Soda.Migrations/Domain/EFMigrationsHistory.cs:9-14 | when catalog ids fit 150 characters and the version fits 32, startup keeps every ledger entry within the column widths |
| Startup.StartupIsIdempotent | src/Soda.Migrations/Services/SodaMigrationService.cs:311-325 | under the convention, a second startup after a finished one calls no executor and leaves the ledger unchanged |

## Left out

- Catalog discovery (`GetLocalMigrations`, `GetLocalMigrationTypes`): the reflection filter by `MigrationAttribute`, namespace and DbContext base type is left out. The catalog is given already filtered to one DbContext.
- `IMigrator.MigrateAsync` semantics: EF migrates to a target and may touch other migrations. Here it is an oracle that depends only on the id and, on success, adds just that id.
- Culture-sensitive comparison: `MaxBy` and `OrderBy` use .NET's default string comparer. The model uses the ordinal order for them too.
- UTF-16: `CompareOrdinal` compares UTF-16 code units. The model compares Dafny characters, which are Unicode scalar values. The two orders differ only for characters outside the Basic Multilingual Plane.
- Database I/O: `SaveChangesAsync`, `ToListAsync` and `GetAppliedMigrationsAsync` are pure reads and appends of the ledger sequence. A write failure such as a duplicate-key violation is not modelled as an error. Instead, the model proves when appends keep the key unique.
- Asynchrony: async/await and the fire-and-forget startup call in `SodaMigrationExtensions.cs` are left out.
- Console and trace output, and the message texts, are left out.
- DI wiring and `SodaMigrationOptions` assembly loading are left out.
- `ISodaMigrationService` and `ISodaMigrationDbContext` are interfaces only and are not modelled.
- `GetEfVersion` is the constant `version` parameter.
- Reconcile.MaxBySort: states only that the result is some maximal element. The function itself keeps the first maximum, as `MaxBy` does, but callers may not rely on that.

=== FILE: apply.dfy ===
/**
 The apply pass: each migration is handled by its policy, one at a time, in
 the order given, and a failing normal migration aborts the batch.
 */
module Apply {
  import opened History
  import opened Catalog

  /** The schema executor (`IMigrator.MigrateAsync`) as an oracle: whether
      migrating to the given id succeeds. */
  type Executor = string -> bool

  /** Where one migration ends up. */
  datatype Outcome = Applied | SkippedRecorded | Failed

  /** The effect of handling one migration: its outcome, whether the executor
      was called, the entries the orchestrator itself wrote, and the ledger
      after it. */
  datatype Step = Step(outcome: Outcome, invoked: bool, written: seq<Record>, ledger: seq<Record>)

  /** The ledger after the executor applies `id`: its own history bookkeeping
      adds the entry. */
  function Executed(ledger: seq<Record>, id: string, version: string): seq<Record>
  {
    ledger + [Record(id, version)]
  }

  /** A migration whose failure aborts the batch. */
  predicate Fatal(d: Descriptor, succeeds: Executor)
  {
    EffectivePolicy(d) == Normal && !succeeds(d.id)
  }

  /** A migration the orchestrator records itself, without the executor having
      applied it: a skip, or a try-migration whose executor call fails. */
  predicate Forced(d: Descriptor, succeeds: Executor)
  {
    EffectivePolicy(d) == Skip || (EffectivePolicy(d) == TryMigrate && !succeeds(d.id))
  }

  /** The single-migration `ApplyMigrationsAsync(Type)`, which is also the loop
      body of the batch overload. */
  function ApplyOne(d: Descriptor, ledger: seq<Record>, succeeds: Executor, version: string): (s: Step)
    ensures s.invoked <==> EffectivePolicy(d) != Skip
    ensures s.outcome == Failed <==> Fatal(d, succeeds)
    ensures s.outcome == Applied <==> s.invoked && succeeds(d.id)
    ensures s.outcome == SkippedRecorded <==> Forced(d, succeeds)
    ensures s.written == if Forced(d, succeeds) then [Record(d.id, version)] else []
    ensures s.outcome == Failed ==> s.ledger == ledger
    ensures s.outcome != Failed ==> s.ledger == ledger + [Record(d.id, version)]
  {
    var record := Record(d.id, version);
    match EffectivePolicy(d)
    case TryMigrate =>
      if succeeds(d.id) then Step(Applied, true, [], Executed(ledger, d.id, version))
      else Step(SkippedRecorded, true, [record], ledger + [record])
    case Skip =>
      Step(SkippedRecorded, false, [record], ledger + [record])
    case Normal =>
      if succeeds(d.id) then Step(Applied, true, [], Executed(ledger, d.id, version))
      else Step(Failed, true, [], ledger)
  }

  /** The ids the executor is asked to migrate to, in order: every migration
      not marked skip. */
  function ExecutorCalls(batch: seq<Descriptor>): seq<string>
  {
    if |batch| == 0 then []
    else (if EffectivePolicy(batch[0]) != Skip then [batch[0].id] else []) + ExecutorCalls(batch[1..])
  }

  /** The entries the orchestrator writes itself, in order: skipped migrations
      and try-migrations whose executor call failed. */
  function ForcedRecords(batch: seq<Descriptor>, succeeds: Executor, version: string): seq<Record>
  {
    if |batch| == 0 then []
    else
      var d := batch[0];
      (if Forced(d, succeeds) then [Record(d.id, version)] else []) + ForcedRecords(batch[1..], succeeds, version)
  }

  /** How a batch ends: normally, or with a `MigrationException` raised at
      position `failedAt`. Both carry the ledger, the executor calls made and
      the entries the orchestrator wrote. */
  datatype BatchResult =
    | Completed(ledger: seq<Record>, calls: seq<string>, written: seq<Record>)
    | Aborted(ledger: seq<Record>, calls: seq<string>, written: seq<Record>, failedAt: nat)

  /** `ApplyMigrationsAsync(IEnumerable<Type>)`: an empty batch returns at
      once; otherwise the migrations are handled in order and the first fatal
      one ends the batch. */
  function ApplyBatch(batch: seq<Descriptor>, ledger: seq<Record>, succeeds: Executor, version: string): (r: BatchResult)
    ensures |batch| == 0 ==> r == Completed(ledger, [], [])
    ensures r.Completed? <==> forall i :: 0 <= i < |batch| ==> !Fatal(batch[i], succeeds)
    ensures r.Aborted? ==>
      && r.failedAt < |batch|
      && Fatal(batch[r.failedAt], succeeds)
      && forall i :: 0 <= i < r.failedAt ==> !Fatal(batch[i], succeeds)
  {
    if |batch| == 0 then Completed(ledger, [], [])
    else
      var d := batch[0];
      var s := ApplyOne(d, ledger, succeeds, version);
      var call := if s.invoked then [d.id] else [];
      if s.outcome == Failed then Aborted(ledger, call, [], 0)
      else
        match ApplyBatch(batch[1..], s.ledger, succeeds, version)
        case Completed(l, c, w) => Completed(l, call + c, s.written + w)
        case Aborted(l, c, w, k) => Aborted(l, call + c, s.written + w, k + 1)
  }

  /** A batch that completes has appended one entry per migration, in order;
      called the executor for exactly the non-skip migrations, in order; and
      written itself exactly the skipped and failed try-migrations. */
  lemma {:induction false} CompletedBatch(batch: seq<Descriptor>, ledger: seq<Record>, succeeds: Executor, version: string)
    requires ApplyBatch(batch, ledger, succeeds, version).Completed?
    ensures
      var r := ApplyBatch(batch, ledger, succeeds, version);
      && r.ledger == ledger + Records(batch, version)
      && r.calls == ExecutorCalls(batch)
      && r.written == ForcedRecords(batch, succeeds, version)
  {
    if |batch| > 0 {
      var r := ApplyBatch(batch, ledger, succeeds, version);
      var d := batch[0];
      var s := ApplyOne(d, ledger, succeeds, version);
      var rest := ApplyBatch(batch[1..], s.ledger, succeeds, version);
      var call := if EffectivePolicy(d) != Skip then [d.id] else [];
      assert && rest.Completed?
             && s.ledger == ledger + [Record(d.id, version)]
             && r.ledger == rest.ledger
             && r.calls == call + rest.calls
             && r.written == s.written + rest.written
      by {
        BatchStep(batch, ledger, succeeds, version);
      }
      CompletedBatch(batch[1..], s.ledger, succeeds, version);
      assert batch == [d] + batch[1..];
      PrefixCons(batch, |batch| - 1, succeeds, version);
      assert batch[1..][..|batch| - 1] == batch[1..];
      assert batch[..|batch|] == batch;
    }
  }

  /** A batch aborted at position k keeps the ledger entries of the
      migrations before k and adds none for k itself. */
  lemma {:induction false} AbortedBatchLedger(batch: seq<Descriptor>, ledger: seq<Record>, succeeds: Executor, version: string)
    requires ApplyBatch(batch, ledger, succeeds, version).Aborted?
    ensures
      var r := ApplyBatch(batch, ledger, succeeds, version);
      r.ledger == ledger + Records(batch[..r.failedAt], version)
  {
    var r := ApplyBatch(batch, ledger, succeeds, version);
    var s := ApplyOne(batch[0], ledger, succeeds, version);
    if s.outcome == Failed {
      assert r.ledger == ledger && r.failedAt == 0 by {
        BatchStep(batch, ledger, succeeds, version);
      }
      assert Records(batch[..0], version) == [];
    } else {
      var rest := ApplyBatch(batch[1..], s.ledger, succeeds, version);
      assert && rest.Aborted?
             && s.ledger == ledger + [Record(batch[0].id, version)]
             && r.ledger == rest.ledger
             && r.failedAt == rest.failedAt + 1
      by {
        BatchStep(batch, ledger, succeeds, version);
      }
      AbortedBatchLedger(batch[1..], s.ledger, succeeds, version);
      LedgerStep(ledger, batch, rest.failedAt, version, rest.ledger);
    }
  }

  /** One step of the batch: a failed first migration aborts at once;
      otherwise the rest of the batch runs on the extended ledger. */
  lemma {:induction false} BatchStep(batch: seq<Descriptor>, ledger: seq<Record>, succeeds: Executor, version: string)
    requires |batch| > 0
    ensures
      var s := ApplyOne(batch[0], ledger, succeeds, version);
      var r := ApplyBatch(batch, ledger, succeeds, version);
      var call := if EffectivePolicy(batch[0]) != Skip then [batch[0].id] else [];
      && (s.outcome == Failed ==> r == Aborted(ledger, call, [], 0))
      && (s.outcome != Failed ==>
            var rest := ApplyBatch(batch[1..], s.ledger, succeeds, version);
            && s.ledger == ledger + [Record(batch[0].id, version)]
            && r.ledger == rest.ledger
            && r.calls == call + rest.calls
            && r.written == s.written + rest.written
            && r.Completed? == rest.Completed?
            && (rest.Aborted? ==> r.failedAt == rest.failedAt + 1))
  {
  }

  /** The ledger after the rest of a batch, seen from the whole batch. */
  lemma {:induction false} LedgerStep(ledger: seq<Record>, batch: seq<Descriptor>, k: nat, version: string, after: seq<Record>)
    requires k < |batch|
    requires after == (ledger + [Record(batch[0].id, version)]) + Records(batch[1..][..k], version)
    ensures after == ledger + Records(batch[..k + 1], version)
  {
    var rec := [Record(batch[0].id, version)];
    var tail := Records(batch[1..][..k], version);
    assert batch[..k + 1] == [batch[0]] + batch[1..][..k];
    RecordsAppend([batch[0]], batch[1..][..k], version);
    assert Records([batch[0]], version) == rec;
    assert (ledger + rec) + tail == ledger + (rec + tail);
  }

  /** A batch aborted at position k called the executor for the non-skip
      migrations up to and including k, and for none after it. */
  lemma {:induction false} AbortedBatchCalls(batch: seq<Descriptor>, ledger: seq<Record>, succeeds: Executor, version: string)
    requires ApplyBatch(batch, ledger, succeeds, version).Aborted?
    ensures
      var r := ApplyBatch(batch, ledger, succeeds, version);
      r.calls == ExecutorCalls(batch[..r.failedAt + 1])
  {
    var r := ApplyBatch(batch, ledger, succeeds, version);
    var s := ApplyOne(batch[0], ledger, succeeds, version);
    var call := if EffectivePolicy(batch[0]) != Skip then [batch[0].id] else [];
    if s.outcome == Failed {
      assert r.calls == call && r.failedAt == 0 by {
        BatchStep(batch, ledger, succeeds, version);
      }
      PrefixCons(batch, 0, succeeds, version);
    } else {
      var rest := ApplyBatch(batch[1..], s.ledger, succeeds, version);
      assert rest.Aborted? && r.calls == call + rest.calls && r.failedAt == rest.failedAt + 1 by {
        BatchStep(batch, ledger, succeeds, version);
      }
      AbortedBatchCalls(batch[1..], s.ledger, succeeds, version);
      assert ExecutorCalls(batch[..rest.failedAt + 2]) == call + ExecutorCalls(batch[1..][..rest.failedAt + 1]) by {
        PrefixCons(batch, rest.failedAt + 1, succeeds, version);
      }
    }
  }

  /** A batch aborted at position k holds the orchestrator's own entries for
      the migrations before k. */
  lemma {:induction false} AbortedBatchWritten(batch: seq<Descriptor>, ledger: seq<Record>, succeeds: Executor, version: string)
    requires ApplyBatch(batch, ledger, succeeds, version).Aborted?
    ensures
      var r := ApplyBatch(batch, ledger, succeeds, version);
      r.written == ForcedRecords(batch[..r.failedAt], succeeds, version)
  {
    var r := ApplyBatch(batch, ledger, succeeds, version);
    var s := ApplyOne(batch[0], ledger, succeeds, version);
    if s.outcome == Failed {
      assert r.written == [] && r.failedAt == 0 by {
        BatchStep(batch, ledger, succeeds, version);
      }
      assert batch[..0] == [];
    } else {
      var rest := ApplyBatch(batch[1..], s.ledger, succeeds, version);
      assert rest.Aborted? && r.written == s.written + rest.written && r.failedAt == rest.failedAt + 1 by {
        BatchStep(batch, ledger, succeeds, version);
      }
      AbortedBatchWritten(batch[1..], s.ledger, succeeds, version);
      WrittenStep(batch, rest.failedAt, succeeds, version, s.written, rest.written);
    }
  }

  /** The orchestrator's entries for the rest of a batch, seen from the whole
      batch. */
  lemma {:induction false} WrittenStep(batch: seq<Descriptor>, k: nat, succeeds: Executor, version: string,
                                       head: seq<Record>, tail: seq<Record>)
    requires k < |batch|
    requires head == if Forced(batch[0], succeeds) then [Record(batch[0].id, version)] else []
    requires tail == ForcedRecords(batch[1..][..k], succeeds, version)
    ensures head + tail == ForcedRecords(batch[..k + 1], succeeds, version)
  {
    PrefixCons(batch, k, succeeds, version);
  }

  /** How the reference definitions unfold on the leading migration of a
      batch prefix. */
  lemma {:induction false} PrefixCons(batch: seq<Descriptor>, k: nat, succeeds: Executor, version: string)
    requires k < |batch|
    ensures
      var d := batch[0];
      var rest := batch[1..][..k];
      && batch[..k + 1] == [d] + rest
      && Records(batch[..k + 1], version) == [Record(d.id, version)] + Records(rest, version)
      && ExecutorCalls(batch[..k + 1]) == (if EffectivePolicy(d) != Skip then [d.id] else []) + ExecutorCalls(rest)
      && ForcedRecords(batch[..k + 1], succeeds, version) ==
           (if Forced(d, succeeds) then [Record(d.id, version)] else []) + ForcedRecords(rest, succeeds, version)
  {
    assert batch[..k + 1] == [batch[0]] + batch[1..][..k];
    ConsFacts(batch[0], batch[1..][..k], succeeds, version);
  }

  /** How the reference definitions unfold on a leading migration. */
  lemma {:induction false} ConsFacts(d: Descriptor, rest: seq<Descriptor>, succeeds: Executor, version: string)
    ensures Records([d] + rest, version) == [Record(d.id, version)] + Records(rest, version)
    ensures ExecutorCalls([d] + rest) == (if EffectivePolicy(d) != Skip then [d.id] else []) + ExecutorCalls(rest)
    ensures ForcedRecords([d] + rest, succeeds, version) ==
      (if Forced(d, succeeds) then [Record(d.id, version)] else []) + ForcedRecords(rest, succeeds, version)
  {
    RecordsAppend([d], rest, version);
    assert Records([d], version) == [Record(d.id, version)];
    assert ([d] + rest)[1..] == rest;
  }

  /** What a batch leaves behind, however it ends: the old ledger first, then
      one entry per migration handled, with the executor calls and the
      orchestrator's own entries of those migrations. */
  lemma {:induction false} BatchEffects(batch: seq<Descriptor>, ledger: seq<Record>, succeeds: Executor, version: string)
    ensures
      var r := ApplyBatch(batch, ledger, succeeds, version);
      && |ledger| <= |r.ledger| && r.ledger[..|ledger|] == ledger
      && (r.Completed? <==> forall d :: d in batch ==> !Fatal(d, succeeds))
      && (r.Aborted? ==>
            && r.failedAt < |batch|
            && Fatal(batch[r.failedAt], succeeds)
            && forall i :: 0 <= i < r.failedAt ==> !Fatal(batch[i], succeeds))
      && (r.Completed? ==>
            && r.ledger == ledger + Records(batch, version)
            && r.calls == ExecutorCalls(batch)
            && r.written == ForcedRecords(batch, succeeds, version))
      && (r.Aborted? ==>
            && r.ledger == ledger + Records(batch[..r.failedAt], version)
            && r.calls == ExecutorCalls(batch[..r.failedAt + 1])
            && r.written == ForcedRecords(batch[..r.failedAt], succeeds, version))
  {
    var r := ApplyBatch(batch, ledger, succeeds, version);
    BatchExtendsLedger(batch, ledger, succeeds, version);
    assert forall i :: 0 <= i < |batch| ==> batch[i] in batch;
    if r.Completed? {
      CompletedBatch(batch, ledger, succeeds, version);
    } else {
      AbortedBatchLedger(batch, ledger, succeeds, version);
      AbortedBatchCalls(batch, ledger, succeeds, version);
      AbortedBatchWritten(batch, ledger, succeeds, version);
    }
  }

  /** The apply pass only appends to the ledger, however the batch ends. */
  lemma {:induction false} BatchExtendsLedger(batch: seq<Descriptor>, ledger: seq<Record>, succeeds: Executor, version: string)
    ensures
      var r := ApplyBatch(batch, ledger, succeeds, version);
      |ledger| <= |r.ledger| && r.ledger[..|ledger|] == ledger
  {
    var r := ApplyBatch(batch, ledger, succeeds, version);
    var done := if r.Completed? then batch else batch[..r.failedAt];
    if r.Completed? {
      CompletedBatch(batch, ledger, succeeds, version);
    } else {
      AbortedBatchLedger(batch, ledger, succeeds, version);
    }
    assert r.ledger == ledger + Records(done, version);
  }

  /** Every executor call is for a non-skip migration of the batch. */
  lemma {:induction false} ExecutorCallsFromBatch(batch: seq<Descriptor>)
    ensures forall id :: id in ExecutorCalls(batch) ==>
      exists d :: d in batch && EffectivePolicy(d) != Skip && d.id == id
  {
    if |batch| > 0 {
      ExecutorCallsFromBatch(batch[1..]);
      forall id | id in ExecutorCalls(batch)
        ensures exists d :: d in batch && EffectivePolicy(d) != Skip && d.id == id
      {
        if id !in ExecutorCalls(batch[1..]) {
          assert batch[0] in batch;
        } else {
          var d :| d in batch[1..] && EffectivePolicy(d) != Skip && d.id == id;
          assert d in batch;
        }
      }
    }
  }

  /** Every forced migration of the batch has its entry among the forced records. */
  lemma {:induction false} ForcedRecordsCover(batch: seq<Descriptor>, succeeds: Executor, version: string)
    ensures forall d :: d in batch && Forced(d, succeeds) ==> Record(d.id, version) in ForcedRecords(batch, succeeds, version)
  {
    if |batch| > 0 {
      ForcedRecordsCover(batch[1..], succeeds, version);
      forall d | d in batch && Forced(d, succeeds)
        ensures Record(d.id, version) in ForcedRecords(batch, succeeds, version)
      {
        if d != batch[0] {
          assert d in batch[1..];
        }
      }
    }
  }

  /** A skipped migration never reaches the executor, whatever else the batch holds. */
  lemma {:induction false} SkipNeverInvoked(batch: seq<Descriptor>, ledger: seq<Record>, succeeds: Executor, version: string)
    requires DistinctIds(batch)
    ensures forall d :: d in batch && EffectivePolicy(d) == Skip ==>
      d.id !in ApplyBatch(batch, ledger, succeeds, version).calls
  {
    var r := ApplyBatch(batch, ledger, succeeds, version);
    var attempted := if r.Completed? then batch else batch[..r.failedAt + 1];
    assert r.calls == ExecutorCalls(attempted) by {
      if r.Completed? {
        CompletedBatch(batch, ledger, succeeds, version);
      } else {
        AbortedBatchCalls(batch, ledger, succeeds, version);
      }
    }
    ExecutorCallsFromBatch(attempted);
  }

  /** A batch of try-migrations never aborts: every migration ends up in the
      ledger, and each one whose executor call failed was recorded by the
      orchestrator. */
  lemma {:induction false} TryOnlyBatchCompletes(batch: seq<Descriptor>, ledger: seq<Record>, succeeds: Executor, version: string)
    requires forall d :: d in batch ==> EffectivePolicy(d) == TryMigrate
    ensures
      var r := ApplyBatch(batch, ledger, succeeds, version);
      && r.Completed?
      && (forall d :: d in batch ==> Record(d.id, version) in r.ledger)
      && (forall d :: d in batch && !succeeds(d.id) ==> Record(d.id, version) in r.written)
  {
    var r := ApplyBatch(batch, ledger, succeeds, version);
    assert forall i :: 0 <= i < |batch| ==> batch[i] in batch;
    CompletedBatch(batch, ledger, succeeds, version);
    ForcedRecordsCover(batch, succeeds, version);
    forall d | d in batch ensures Record(d.id, version) in r.ledger {
      var i :| 0 <= i < |batch| && batch[i] == d;
      assert r.ledger[|ledger| + i] == Records(batch, version)[i];
    }
  }

  /** When a normal migration aborts the batch, no entry for it was added and
      everything before it stays recorded. */
  lemma {:induction false} AbortLeavesFailedUnrecorded(batch: seq<Descriptor>, ledger: seq<Record>, succeeds: Executor, version: string)
    requires DistinctIds(batch)
    requires ApplyBatch(batch, ledger, succeeds, version).Aborted?
    ensures
      var r := ApplyBatch(batch, ledger, succeeds, version);
      var failed := batch[r.failedAt].id;
      && |ledger| <= |r.ledger| && r.ledger[..|ledger|] == ledger
      && (forall x :: x in r.ledger[|ledger|..] ==> x.migrationId != failed)
      && (forall i :: 0 <= i < r.failedAt ==> Record(batch[i].id, version) in r.ledger)
  {
    var r := ApplyBatch(batch, ledger, succeeds, version);
    var k := r.failedAt;
    AbortedBatchLedger(batch, ledger, succeeds, version);
    var added := Records(batch[..k], version);
    assert r.ledger[|ledger|..] == added;
    forall x | x in added ensures x.migrationId != batch[k].id {
      var i :| 0 <= i < |added| && added[i] == x;
      assert x.migrationId == batch[i].id;
    }
    forall i | 0 <= i < k ensures Record(batch[i].id, version) in r.ledger {
      assert r.ledger[|ledger| + i] == added[i];
    }
  }

  /** Applying a batch of distinct migrations none of which is in the ledger
      keeps the ledger's keys unique, however the batch ends. */
  lemma {:induction false} BatchKeepsKeysUnique(batch: seq<Descriptor>, ledger: seq<Record>, succeeds: Executor, version: string)
    requires UniqueKeys(ledger)
    requires DistinctIds(batch)
    requires forall d :: d in batch ==> d.id !in AppliedIds(ledger)
    ensures UniqueKeys(ApplyBatch(batch, ledger, succeeds, version).ledger)
  {
    var r := ApplyBatch(batch, ledger, succeeds, version);
    var done := if r.Completed? then batch else batch[..r.failedAt];
    assert r.ledger == ledger + Records(done, version) by {
      if r.Completed? {
        CompletedBatch(batch, ledger, succeeds, version);
      } else {
        AbortedBatchLedger(batch, ledger, succeeds, version);
      }
    }
    assert DistinctIds(done) && forall d :: d in done ==> d in batch;
    AppendFreshRecords(ledger, done, version);
  }

  /** Appending the entries of distinct migrations that are not yet in the
      ledger keeps its keys unique. */
  lemma {:induction false} AppendFreshRecords(ledger: seq<Record>, done: seq<Descriptor>, version: string)
    requires UniqueKeys(ledger)
    requires DistinctIds(done)
    requires forall d :: d in done ==> d.id !in AppliedIds(ledger)
    ensures UniqueKeys(ledger + Records(done, version))
  {
    var added := Records(done, version);
    forall x | x in added ensures x.migrationId !in AppliedIds(ledger) {
      var i :| 0 <= i < |added| && added[i] == x;
      assert done[i] in done;
    }
    DistinctRecordKeys(done, version);
    UniqueKeysAppend(ledger, added);
  }

  /** The apply pass appends only entries of the batch's own migrations,
      stamped with the executor's version. */
  lemma {:induction false} BatchAppendsOwnEntries(batch: seq<Descriptor>, ledger: seq<Record>, succeeds: Executor, version: string)
    ensures
      var r := ApplyBatch(batch, ledger, succeeds, version);
      && |ledger| <= |r.ledger|
      && forall x :: x in r.ledger[|ledger|..] ==> x in Records(batch, version)
  {
    var r := ApplyBatch(batch, ledger, succeeds, version);
    var done := if r.Completed? then batch else batch[..r.failedAt];
    assert r.ledger == ledger + Records(done, version) by {
      if r.Completed? {
        CompletedBatch(batch, ledger, succeeds, version);
      } else {
        AbortedBatchLedger(batch, ledger, succeeds, version);
      }
    }
    assert r.ledger[|ledger|..] == Records(done, version);
    forall x | x in Records(done, version) ensures x in Records(batch, version) {
      var i :| 0 <= i < |Records(done, version)| && Records(done, version)[i] == x;
      assert Records(batch, version)[i] == x;
    }
  }
}

=== FILE: catalog.dfy ===
/**
 The local migration catalog of one DbContext: the migration types the
 configured assembly declares for it, reduced to their ids and the two
 policy attributes a type may carry.
 */
module Catalog {
  import opened Ordinal
  import opened History

  /** What the apply pass does with one migration. */
  datatype Policy = Normal | TryMigrate | Skip

  /** One migration type: its `[Migration]` id and whether it carries the
      `TryMigration` and `SkipMigration` attributes. */
  datatype Descriptor = Descriptor(id: string, tryMigrate: bool, skip: bool)

  /** The attribute test order of the apply pass: `TryMigration` first, then
      `SkipMigration`, otherwise a normal migration. A migration carrying both
      attributes is a try-migration. */
  function EffectivePolicy(d: Descriptor): (p: Policy)
    ensures p == TryMigrate <==> d.tryMigrate
    ensures p == Skip <==> !d.tryMigrate && d.skip
    ensures p == Normal <==> !d.tryMigrate && !d.skip
  {
    if d.tryMigrate then TryMigrate else if d.skip then Skip else Normal
  }

  /** Ids are unique within one catalog. */
  predicate DistinctIds(catalog: seq<Descriptor>)
  {
    forall i, j :: 0 <= i < j < |catalog| ==> catalog[i].id != catalog[j].id
  }

  /** The ids of the catalog, in catalog order. */
  function Ids(catalog: seq<Descriptor>): (ids: seq<string>)
    ensures forall d :: d in catalog ==> d.id in ids
  {
    var ids := seq(|catalog|, i requires 0 <= i < |catalog| => catalog[i].id);
    assert forall d :: d in catalog ==> d.id in ids by {
      forall d | d in catalog ensures d.id in ids {
        var i :| 0 <= i < |catalog| && catalog[i] == d;
        assert ids[i] == d.id;
      }
    }
    ids
  }

  /** The ledger entries the catalog would produce (`GetLocalMigrations`):
      one per migration, each stamped with the executor's version. */
  function Records(catalog: seq<Descriptor>, version: string): (rs: seq<Record>)
    ensures |rs| == |catalog|
    ensures forall i :: 0 <= i < |catalog| ==> rs[i] == Record(catalog[i].id, version)
  {
    seq(|catalog|, i requires 0 <= i < |catalog| => Record(catalog[i].id, version))
  }

  /** A catalog id sits at some position of the catalog. */
  lemma {:induction false} IdPosition(catalog: seq<Descriptor>, x: string)
    requires x in Ids(catalog)
    ensures exists j :: 0 <= j < |catalog| && catalog[j].id == x
  {
    var j :| 0 <= j < |Ids(catalog)| && Ids(catalog)[j] == x;
    assert catalog[j].id == x;
  }

  /** Distinct migrations produce entries with distinct keys. */
  lemma {:induction false} DistinctRecordKeys(catalog: seq<Descriptor>, version: string)
    requires DistinctIds(catalog)
    ensures UniqueKeys(Records(catalog, version))
  {
  }

  /** The entries of some catalog migrations are entries of the catalog. */
  lemma {:induction false} RecordsOfSubset(sub: seq<Descriptor>, catalog: seq<Descriptor>, version: string)
    requires forall d :: d in sub ==> d in catalog
    ensures forall x :: x in Records(sub, version) ==> x in Records(catalog, version)
  {
    forall x | x in Records(sub, version) ensures x in Records(catalog, version) {
      var i :| 0 <= i < |sub| && Records(sub, version)[i] == x;
      assert sub[i] in sub;
      var j :| 0 <= j < |catalog| && catalog[j] == sub[i];
      assert Records(catalog, version)[j] == x;
    }
  }

  /** The entry for a catalog migration carries that migration's id. */
  lemma {:induction false} RecordsHaveCatalogIds(catalog: seq<Descriptor>, version: string, r: Record)
    requires r in Records(catalog, version)
    ensures r.migrationId in Ids(catalog)
    ensures r.productVersion == version
  {
    var i :| 0 <= i < |Records(catalog, version)| && Records(catalog, version)[i] == r;
    assert Ids(catalog)[i] == r.migrationId;
  }

  /** Entries of a concatenation. */
  lemma {:induction false} RecordsAppend(a: seq<Descriptor>, b: seq<Descriptor>, version: string)
    ensures Records(a + b, version) == Records(a, version) + Records(b, version)
  {
    assert |Records(a + b, version)| == |Records(a, version) + Records(b, version)|;
    forall i | 0 <= i < |a + b| ensures Records(a + b, version)[i] == (Records(a, version) + Records(b, version))[i] {
      if i >= |a| {
        assert (a + b)[i] == b[i - |a|];
      }
    }
  }

  /** Ids in non-decreasing ordinal order. */
  predicate Ascending(s: seq<Descriptor>)
  {
    forall i, j :: 0 <= i < j < |s| ==> Compare(s[i].id, s[j].id) <= 0
  }

  /** Ids in strictly increasing ordinal order. */
  predicate StrictlyAscending(s: seq<Descriptor>)
  {
    forall i, j :: 0 <= i < j < |s| ==> Compare(s[i].id, s[j].id) < 0
  }

  /** Places `x` before the first element whose id is not below its own. */
  function Insert(x: Descriptor, s: seq<Descriptor>): (r: seq<Descriptor>)
    requires Ascending(s)
    ensures |r| == |s| + 1
    ensures r[0] == x || (|s| > 0 && r[0] == s[0])
    ensures Ascending(r)
    ensures multiset(r) == multiset(s) + multiset{x}
  {
    if |s| == 0 then [x]
    else if Compare(x.id, s[0].id) <= 0 then
      PrependLowest(x, s);
      [x] + s
    else
      AscendingTail(s);
      var t := Insert(x, s[1..]);
      assert Compare(s[0].id, t[0].id) <= 0 by {
        CompareFlip(x.id, s[0].id);
        if |s| > 1 {
          assert s[1..][0] == s[1];
        }
      }
      PrependLowest(s[0], t);
      assert multiset([s[0]] + t) == multiset(s) + multiset{x} by {
        assert s == [s[0]] + s[1..];
      }
      [s[0]] + t
  }

  /** Dropping the head keeps the order. */
  lemma {:induction false} AscendingTail(s: seq<Descriptor>)
    requires Ascending(s) && |s| > 0
    ensures Ascending(s[1..])
  {
  }

  /** An element no later than the head of an ascending sequence may go in front. */
  lemma {:induction false} PrependLowest(x: Descriptor, s: seq<Descriptor>)
    requires Ascending(s)
    requires |s| > 0 ==> Compare(x.id, s[0].id) <= 0
    ensures Ascending([x] + s)
  {
    forall j | 0 <= j < |s| ensures Compare(x.id, s[j].id) <= 0 {
      if j > 0 { CompareTransitive(x.id, s[0].id, s[j].id); }
    }
  }

  /** `OrderBy(id)`: a stable sort of the migrations by ascending id. */
  function SortById(s: seq<Descriptor>): (r: seq<Descriptor>)
    ensures Ascending(r)
    ensures multiset(r) == multiset(s)
  {
    if |s| == 0 then []
    else
      assert s == [s[0]] + s[1..];
      Insert(s[0], SortById(s[1..]))
  }

  /** With unique ids, the sorted order is strict. */
  lemma {:induction false} AscendingDistinctIsStrict(s: seq<Descriptor>)
    requires Ascending(s)
    requires DistinctIds(s)
    ensures StrictlyAscending(s)
  {
    forall i, j | 0 <= i < j < |s| ensures Compare(s[i].id, s[j].id) < 0 {
      assert Compare(s[i].id, s[j].id) != 0;
    }
  }

  /** Taking some of the elements (counted) of a sequence with unique ids keeps them unique. */
  lemma {:induction false} SubMultisetKeepsDistinctIds(s: seq<Descriptor>, t: seq<Descriptor>)
    requires multiset(t) <= multiset(s)
    requires DistinctIds(s)
    ensures DistinctIds(t)
  {
    forall i, j | 0 <= i < j < |t| ensures t[i].id != t[j].id {
      if t[i].id == t[j].id {
        assert t[i] in multiset(s) && t[j] in multiset(s);
        var a :| 0 <= a < |s| && s[a] == t[i];
        var b :| 0 <= b < |s| && s[b] == t[j];
        assert a == b;
        assert t[i] == t[j];
        CountTwice(t, i, j);
        CountAtMostOnce(s, a);
        assert false;
      }
    }
  }

  /** An element found at two positions occurs at least twice. */
  lemma {:induction false} CountTwice(t: seq<Descriptor>, i: int, j: int)
    requires 0 <= i < j < |t| && t[i] == t[j]
    ensures multiset(t)[t[i]] >= 2
  {
    assert t == t[..i] + [t[i]] + t[i + 1..j] + [t[j]] + t[j + 1..];
  }

  /** With unique ids, each descriptor occurs at most once. */
  lemma {:induction false} CountAtMostOnce(s: seq<Descriptor>, a: int)
    requires DistinctIds(s)
    requires 0 <= a < |s|
    ensures multiset(s)[s[a]] == 1
  {
    assert s == s[..a] + [s[a]] + s[a + 1..];
    assert s[a] !in s[..a];
    assert s[a] !in s[a + 1..];
  }
}

=== FILE: history.dfy ===
/**
 The ledger entry (`EFMigrationsHistory`, table `__EFMigrationsHistory`):
 a migration id, the executor's product version, and the derived sort key.
 */
module History {

  /** Column widths declared on the entity. */
  const MaxMigrationIdLength: nat := 150
  const MaxProductVersionLength: nat := 32

  /** The part of `id` before its first `_` (all of `id` when it has none). */
  function SortKey(id: string): (k: string)
    ensures k <= id
    ensures '_' !in k
    ensures |k| < |id| ==> id[|k|] == '_'
  {
    if |id| == 0 || id[0] == '_' then ""
    else
      assert id == [id[0]] + id[1..];
      [id[0]] + SortKey(id[1..])
  }

  datatype Record = Record(migrationId: string, productVersion: string)
  {
    /** The key `MaxBy` and the backfill comparison order records by. */
    function Sort(): string
    {
      SortKey(migrationId)
    }

    /** Fits the declared column widths. */
    predicate WellFormed()
    {
      |migrationId| <= MaxMigrationIdLength && |productVersion| <= MaxProductVersionLength
    }
  }

  /** How an id splits around its sort key. */
  lemma {:induction false} SortKeyShape(id: string)
    ensures '_' !in id ==> SortKey(id) == id
    ensures '_' in id ==> exists rest :: id == SortKey(id) + "_" + rest
    ensures |SortKey(id)| <= |id|
  {
    var k := SortKey(id);
    if '_' in id {
      assert |k| < |id|;
      var rest := id[|k| + 1..];
      assert id == k + "_" + rest;
    }
  }

  /** Taking the sort key of a sort key changes nothing. */
  lemma {:induction false} SortKeyIdempotent(id: string)
    ensures SortKey(SortKey(id)) == SortKey(id)
  {
    SortKeyShape(SortKey(id));
  }

  /** `MigrationId` is the table's key: no two entries share it. */
  predicate UniqueKeys(ledger: seq<Record>)
  {
    forall i, j :: 0 <= i < j < |ledger| ==> ledger[i].migrationId != ledger[j].migrationId
  }

  /** Appending entries with fresh, distinct keys keeps the keys unique. */
  lemma {:induction false} UniqueKeysAppend(a: seq<Record>, b: seq<Record>)
    requires UniqueKeys(a) && UniqueKeys(b)
    requires forall x :: x in b ==> x.migrationId !in AppliedIds(a)
    ensures UniqueKeys(a + b)
  {
    forall i, j | 0 <= i < j < |a + b| ensures (a + b)[i].migrationId != (a + b)[j].migrationId {
      if j >= |a| {
        assert (a + b)[j] == b[j - |a|];
        if i < |a| {
          assert (a + b)[i] in a;
          assert b[j - |a|] in b;
        }
      }
    }
  }

  /** The ids the ledger reports as applied. */
  function AppliedIds(ledger: seq<Record>): (ids: set<string>)
    ensures forall r :: r in ledger ==> r.migrationId in ids
    ensures forall id :: id in ids ==> exists r :: r in ledger && r.migrationId == id
  {
    set r | r in ledger :: r.migrationId
  }
}

=== FILE: options.dfy ===
/** The optional value returned where the source returns a nullable reference. */
module Options {

  datatype Option<+T> = None | Some(value: T)
}

=== FILE: ordinal.dfy ===
/**
 Ordinal string comparison, the sign of `String.CompareOrdinal`: strings are
 compared character by character and a proper prefix sorts first. The model
 uses this one total order everywhere an id or a sort key is compared.
 */
module Ordinal {

  /** -1, 0 or 1 as `a` sorts before, equal to or after `b`. */
  function Compare(a: string, b: string): (c: int)
    ensures -1 <= c <= 1
    ensures c == 0 <==> a == b
  {
    if |a| == 0 && |b| == 0 then 0
    else if |a| == 0 then -1
    else if |b| == 0 then 1
    else if a[0] < b[0] then -1
    else if b[0] < a[0] then 1
    else
      assert a == [a[0]] + a[1..] && b == [b[0]] + b[1..];
      Compare(a[1..], b[1..])
  }

  /** Swapping the operands flips the sign. */
  lemma {:induction false} CompareFlip(a: string, b: string)
    ensures Compare(b, a) == -Compare(a, b)
  {
    if |a| > 0 && |b| > 0 && a[0] == b[0] {
      CompareFlip(a[1..], b[1..]);
    }
  }

  /** "Sorts no later than" is transitive. */
  lemma {:induction false} CompareTransitive(a: string, b: string, c: string)
    requires Compare(a, b) <= 0 && Compare(b, c) <= 0
    ensures Compare(a, c) <= 0
  {
    if |a| > 0 && |b| > 0 && |c| > 0 && a[0] == b[0] && b[0] == c[0] {
      CompareTransitive(a[1..], b[1..], c[1..]);
    }
  }

  /** Strictly before, then no later than, is strictly before. */
  lemma StrictThenWeak(a: string, b: string, c: string)
    requires Compare(a, b) < 0 && Compare(b, c) <= 0
    ensures Compare(a, c) < 0
  {
    CompareTransitive(a, b, c);
    if a == c {
      CompareFlip(a, b);
    }
  }

  /** No later than, then strictly before, is strictly before. */
  lemma WeakThenStrict(a: string, b: string, c: string)
    requires Compare(a, b) <= 0 && Compare(b, c) < 0
    ensures Compare(a, c) < 0
  {
    CompareTransitive(a, b, c);
    if a == c {
      CompareFlip(b, c);
    }
  }
}

=== FILE: reconcile.dfy ===
/**
 The reconciliation engine: which applied migration is the current version,
 which local migrations are pending, and which must be backfilled into the
 ledger without running.
 */
module Reconcile {
  import opened Options
  import opened Ordinal
  import opened Seqs
  import opened History
  import opened Catalog

  /** Ledger entries whose id belongs to this catalog. */
  function Recognized(catalog: seq<Descriptor>, ledger: seq<Record>): seq<Record>
  {
    Filter(ledger, (r: Record) => r.migrationId in Ids(catalog))
  }

  /** `MaxBy(x => x.Sort)`: scans left to right and replaces the candidate only
      on a strictly greater key, so the first of several maxima is kept. */
  function MaxBySort(rs: seq<Record>): (m: Option<Record>)
    ensures m.None? <==> |rs| == 0
    ensures m.Some? ==> m.value in rs
    ensures m.Some? ==> forall r :: r in rs ==> Compare(r.Sort(), m.value.Sort()) <= 0
  {
    if |rs| == 0 then None
    else
      var init := rs[..|rs| - 1];
      var x := rs[|rs| - 1];
      assert rs == init + [x];
      var m := MaxBySort(init);
      if m.None? then Some(x)
      else if Compare(x.Sort(), m.value.Sort()) > 0 then
        NewMaximum(init, m.value, x);
        Some(x)
      else Some(m.value)
  }

  /** A key strictly above the maximum of `rs` is the maximum of `rs + [x]`. */
  lemma {:induction false} NewMaximum(rs: seq<Record>, m: Record, x: Record)
    requires forall r :: r in rs ==> Compare(r.Sort(), m.Sort()) <= 0
    requires Compare(x.Sort(), m.Sort()) > 0
    ensures forall r :: r in rs + [x] ==> Compare(r.Sort(), x.Sort()) <= 0
  {
    CompareFlip(x.Sort(), m.Sort());
    forall r | r in rs + [x] ensures Compare(r.Sort(), x.Sort()) <= 0 {
      if r in rs {
        WeakThenStrict(r.Sort(), m.Sort(), x.Sort());
      }
    }
  }

  /** `GetLastVersion`: the recognized ledger entry with the greatest sort key,
      or nothing when no ledger entry belongs to this catalog. */
  function LastVersion(catalog: seq<Descriptor>, ledger: seq<Record>): (last: Option<Record>)
    ensures last.None? <==> forall r :: r in ledger ==> r.migrationId !in Ids(catalog)
    ensures last.Some? ==> last.value in ledger && last.value.migrationId in Ids(catalog)
    ensures last.Some? ==>
      forall r :: r in ledger && r.migrationId in Ids(catalog) ==> Compare(r.Sort(), last.value.Sort()) <= 0
  {
    var known := Recognized(catalog, ledger);
    assert |known| > 0 ==> known[0] in known;
    MaxBySort(known)
  }

  /** `GetPendingMigrationsAsync`: without a last version the whole catalog in
      catalog order; otherwise the migrations whose id is ordinally above the
      last version's id, sorted by id. */
  function Pending(catalog: seq<Descriptor>, ledger: seq<Record>): (pending: seq<Descriptor>)
    ensures LastVersion(catalog, ledger).None? ==> pending == catalog
    ensures LastVersion(catalog, ledger).Some? ==>
      var lastId := LastVersion(catalog, ledger).value.migrationId;
      && Ascending(pending)
      && (forall d :: d in pending <==> d in catalog && Compare(d.id, lastId) > 0)
  {
    match LastVersion(catalog, ledger)
    case None => catalog
    case Some(last) =>
      var newer := Filter(catalog, (d: Descriptor) => Compare(d.id, last.migrationId) > 0);
      var sorted := SortById(newer);
      assert forall d :: d in sorted <==> d in newer by {
        assert forall d :: d in sorted <==> d in multiset(newer);
      }
      sorted
  }

  /** With a last version, each newer migration appears in the pending set as
      often as in the catalog, and every other migration not at all. */
  lemma {:induction false} PendingCounts(catalog: seq<Descriptor>, ledger: seq<Record>)
    requires LastVersion(catalog, ledger).Some?
    ensures var lastId := LastVersion(catalog, ledger).value.migrationId;
      forall d :: multiset(Pending(catalog, ledger))[d] == if Compare(d.id, lastId) > 0 then multiset(catalog)[d] else 0
  {
    var last := LastVersion(catalog, ledger).value;
    FilterCount(catalog, (d: Descriptor) => Compare(d.id, last.migrationId) > 0);
  }

  /** Every pending migration is a catalog migration, no more often than there. */
  lemma {:induction false} PendingWithinCatalog(catalog: seq<Descriptor>, ledger: seq<Record>)
    ensures multiset(Pending(catalog, ledger)) <= multiset(catalog)
  {
    if LastVersion(catalog, ledger).Some? {
      PendingCounts(catalog, ledger);
    }
  }

  /** `DiscardNoPendingMigrationsHistoryAsync`'s selection: without a last
      version every local migration; otherwise the local migrations whose sort
      key is at or below the last version's and whose id is not yet applied. */
  function Backfill(catalog: seq<Descriptor>, ledger: seq<Record>, version: string): (backfill: seq<Record>)
    ensures LastVersion(catalog, ledger).None? ==> backfill == Records(catalog, version)
    ensures LastVersion(catalog, ledger).Some? ==>
      var last := LastVersion(catalog, ledger).value;
      forall r :: r in backfill <==>
        && r in Records(catalog, version)
        && Compare(r.Sort(), last.Sort()) <= 0
        && r.migrationId !in AppliedIds(ledger)
  {
    match LastVersion(catalog, ledger)
    case None => Records(catalog, version)
    case Some(last) =>
      var applied := AppliedIds(ledger);
      Filter(Records(catalog, version),
             (r: Record) => Compare(r.Sort(), last.Sort()) <= 0 && r.migrationId !in applied)
  }

  /** The ledger after the backfill step: the selection is appended in one
      write, and nothing is written when it is empty. */
  function Discard(catalog: seq<Descriptor>, ledger: seq<Record>, version: string): (after: seq<Record>)
    ensures |ledger| <= |after| && after[..|ledger|] == ledger
    ensures |Backfill(catalog, ledger, version)| == 0 ==> after == ledger
    ensures forall r :: r in after <==> r in ledger || r in Backfill(catalog, ledger, version)
  {
    var backfill := Backfill(catalog, ledger, version);
    if |backfill| == 0 then ledger else ledger + backfill
  }

  /** With unique catalog ids and a last version, the pending ids strictly increase. */
  lemma {:induction false} PendingStrictlyAscending(catalog: seq<Descriptor>, ledger: seq<Record>)
    requires DistinctIds(catalog)
    requires LastVersion(catalog, ledger).Some?
    ensures StrictlyAscending(Pending(catalog, ledger))
  {
    var pending := Pending(catalog, ledger);
    PendingWithinCatalog(catalog, ledger);
    SubMultisetKeepsDistinctIds(catalog, pending);
    AscendingDistinctIsStrict(pending);
  }

  /** The naming convention the pending computation relies on: ordering the
      catalog's ids ordinally orders their sort keys strictly the same way
      (for instance, timestamps of one fixed width, never two in the same second). */
  predicate SortMonotone(catalog: seq<Descriptor>)
  {
    forall i, j :: 0 <= i < |catalog| && 0 <= j < |catalog| && Compare(catalog[i].id, catalog[j].id) < 0 ==>
      Compare(SortKey(catalog[i].id), SortKey(catalog[j].id)) < 0
  }

  /** Under that convention no pending migration is already in the ledger. */
  lemma {:induction false} PendingIsUnapplied(catalog: seq<Descriptor>, ledger: seq<Record>)
    requires SortMonotone(catalog)
    ensures forall d :: d in Pending(catalog, ledger) ==> d.id !in AppliedIds(ledger)
  {
    match LastVersion(catalog, ledger)
    case None =>
    case Some(last) =>
      forall d | d in Pending(catalog, ledger) ensures d.id !in AppliedIds(ledger) {
        NewerIsUnapplied(catalog, ledger, last, d);
      }
  }

  /** One migration ordinally above the last version: its sort key is above
      the last version's, so no ledger entry with its id can exist. */
  lemma {:induction false} NewerIsUnapplied(catalog: seq<Descriptor>, ledger: seq<Record>, last: Record, d: Descriptor)
    requires SortMonotone(catalog)
    requires LastVersion(catalog, ledger) == Some(last)
    requires d in catalog && Compare(d.id, last.migrationId) > 0
    ensures d.id !in AppliedIds(ledger)
  {
    var i :| 0 <= i < |catalog| && catalog[i] == d;
    IdPosition(catalog, last.migrationId);
    var j :| 0 <= j < |catalog| && catalog[j].id == last.migrationId;
    CompareFlip(d.id, last.migrationId);
    assert Compare(SortKey(last.migrationId), SortKey(d.id)) < 0 by {
      assert Compare(catalog[j].id, catalog[i].id) < 0;
    }
    CompareFlip(SortKey(last.migrationId), SortKey(d.id));
    assert forall r :: r in ledger && r.migrationId == d.id ==> Compare(r.Sort(), last.Sort()) <= 0 by {
      assert d.id in Ids(catalog);
    }
  }

  /** The last version of the example below is `20230_b`. */
  lemma {:induction false} ExampleLastVersion(catalog: seq<Descriptor>, ledger: seq<Record>)
    requires catalog == [Descriptor("2023_a", false, false), Descriptor("20230_b", false, false)]
    requires ledger == [Record("2023_a", "8.0.0"), Record("20230_b", "8.0.0")]
    ensures LastVersion(catalog, ledger) == Some(ledger[1])
  {
    PrefixKeyExample();
    assert ledger[1] in ledger;
    assert ledger[1].migrationId == Ids(catalog)[1];
    var v := LastVersion(catalog, ledger).value;
    assert v == ledger[0] || v == ledger[1];
    assert Compare(ledger[1].Sort(), v.Sort()) <= 0;
    assert v.Sort() != ledger[0].Sort();
  }

  /** Without that convention the pending set can hold an applied migration:
      with ids `2023_a` and `20230_b` both applied, the last version is
      `20230_b` (sort key `20230` above `2023`), yet `2023_a` is ordinally
      above `20230_b` because `_` sorts after `0`. */
  lemma {:induction false} PendingMayHoldApplied(catalog: seq<Descriptor>, ledger: seq<Record>)
    requires catalog == [Descriptor("2023_a", false, false), Descriptor("20230_b", false, false)]
    requires ledger == [Record("2023_a", "8.0.0"), Record("20230_b", "8.0.0")]
    ensures Pending(catalog, ledger) == [catalog[0]]
    ensures catalog[0].id in AppliedIds(ledger)
  {
    ExampleLastVersion(catalog, ledger);
    PrefixKeyExample();
    CompareFlip(catalog[0].id, catalog[1].id);
    var pending := Pending(catalog, ledger);
    PendingCounts(catalog, ledger);
    assert multiset(pending)[catalog[0]] == 1;
    assert forall d :: d in pending ==> d == catalog[0] by {
      forall d | d in pending ensures d == catalog[0] {
        assert d in catalog;
        assert d != catalog[1];
      }
    }
    OnlyOneValue(pending, catalog[0]);
    assert ledger[0] in ledger;
  }

  /** With only `2023_a` applied, the last version is `2023_a`. */
  lemma {:induction false} FirstAppliedLastVersion(catalog: seq<Descriptor>, ledger: seq<Record>)
    requires catalog == [Descriptor("2023_a", false, false), Descriptor("20230_b", false, false)]
    requires ledger == [Record("2023_a", "8.0.0")]
    ensures LastVersion(catalog, ledger) == Some(ledger[0])
  {
    assert catalog[0] in catalog && ledger[0] in ledger;
  }

  /** Without the naming convention a migration can also be missed for good:
      with only `2023_a` applied, `20230_b` is not pending, because it is
      ordinally below `2023_a`, and not backfilled, because its sort key
      `20230` is above the last version's `2023`. */
  lemma {:induction false} NewerNeitherPendingNorBackfilled(catalog: seq<Descriptor>, ledger: seq<Record>, version: string)
    requires catalog == [Descriptor("2023_a", false, false), Descriptor("20230_b", false, false)]
    requires ledger == [Record("2023_a", "8.0.0")]
    ensures Pending(catalog, ledger) == []
    ensures Backfill(catalog, ledger, version) == []
    ensures catalog[1].id !in AppliedIds(ledger)
  {
    FirstAppliedNothingPending(catalog, ledger);
    FirstAppliedNothingBackfilled(catalog, ledger, version);
  }

  /** In that example no catalog id is ordinally above `2023_a`. */
  lemma {:induction false} FirstAppliedNothingPending(catalog: seq<Descriptor>, ledger: seq<Record>)
    requires catalog == [Descriptor("2023_a", false, false), Descriptor("20230_b", false, false)]
    requires ledger == [Record("2023_a", "8.0.0")]
    ensures Pending(catalog, ledger) == []
  {
    FirstAppliedLastVersion(catalog, ledger);
    PrefixKeyExample();
    CompareFlip(catalog[0].id, catalog[1].id);
    assert forall d :: d in catalog ==> Compare(d.id, "2023_a") <= 0;
    NoMembersIsEmpty(Pending(catalog, ledger));
  }

  /** In that example every catalog entry is applied or above the last
      version's sort key. */
  lemma {:induction false} FirstAppliedNothingBackfilled(catalog: seq<Descriptor>, ledger: seq<Record>, version: string)
    requires catalog == [Descriptor("2023_a", false, false), Descriptor("20230_b", false, false)]
    requires ledger == [Record("2023_a", "8.0.0")]
    ensures Backfill(catalog, ledger, version) == []
    ensures catalog[1].id !in AppliedIds(ledger)
  {
    FirstAppliedLastVersion(catalog, ledger);
    PrefixKeyExample();
    assert ledger[0].Sort() == "2023";
    assert "2023_a" in AppliedIds(ledger) by { assert ledger[0] in ledger; }
    var rs := Records(catalog, version);
    assert rs == [Record("2023_a", version), Record("20230_b", version)];
    assert rs[1].Sort() == "20230";
    forall r | r in rs ensures r.migrationId in AppliedIds(ledger) || Compare(r.Sort(), "2023") > 0 {
      assert r == rs[0] || r == rs[1];
    }
    NoMembersIsEmpty(Backfill(catalog, ledger, version));
  }

  /** The catalog of that example breaks the naming convention. */
  lemma {:induction false} PrefixKeysBreakConvention(catalog: seq<Descriptor>)
    requires catalog == [Descriptor("2023_a", false, false), Descriptor("20230_b", false, false)]
    ensures !SortMonotone(catalog)
  {
    PrefixKeyExample();
    CompareFlip(catalog[0].id, catalog[1].id);
    assert Compare(catalog[1].id, catalog[0].id) < 0;
    assert Compare(SortKey(catalog[1].id), SortKey(catalog[0].id)) > 0;
  }

  /** A sequence whose every element is `x`, and which holds `x` once, is `[x]`. */
  lemma {:induction false} OnlyOneValue<T>(s: seq<T>, x: T)
    requires forall y :: y in s ==> y == x
    requires multiset(s)[x] == 1
    ensures s == [x]
  {
    AllOneValueCount(s, x);
  }

  /** In a sequence whose every element is `x`, `x` occurs once per position. */
  lemma {:induction false} AllOneValueCount<T>(s: seq<T>, x: T)
    requires forall y :: y in s ==> y == x
    ensures multiset(s)[x] == |s|
  {
    if |s| > 0 {
      assert s == [s[0]] + s[1..];
      assert s[0] in s;
      assert forall y :: y in s[1..] ==> y in s;
      AllOneValueCount(s[1..], x);
    }
  }

  /** The concrete comparisons behind that example. */
  lemma {:induction false} PrefixKeyExample()
    ensures SortKey("2023_a") == "2023" && SortKey("20230_b") == "20230"
    ensures Compare("2023", "20230") < 0 && Compare("20230", "2023") > 0
    ensures Compare("2023_a", "20230_b") > 0
  {
    ExampleKeys();
    ExampleKeyOrder();
    CompareFlip("2023", "20230");
    ExampleIdOrder();
  }

  /** The sort keys of the two example ids. */
  lemma ExampleKeys()
    ensures SortKey("2023_a") == "2023" && SortKey("20230_b") == "20230"
  {
    FirstExampleKey();
    SecondExampleKey();
  }

  /** The sort key of `2023_a`. */
  lemma FirstExampleKey()
    ensures SortKey("2023_a") == "2023"
  {
  }

  /** The sort key of `20230_b`. */
  lemma SecondExampleKey()
    ensures SortKey("20230_b") == "20230"
  {
  }

  /** `2023` is a proper prefix of `20230`, so it sorts first. */
  lemma ExampleKeyOrder()
    ensures Compare("2023", "20230") < 0
  {
  }

  /** At the fifth character `_` meets `0`, and `_` is the greater. */
  lemma ExampleIdOrder()
    ensures Compare("2023_a", "20230_b") > 0
  {
  }

  /** The backfill never records an id the ledger already holds. */
  lemma {:induction false} BackfillIsFresh(catalog: seq<Descriptor>, ledger: seq<Record>, version: string)
    ensures forall r :: r in Backfill(catalog, ledger, version) ==> r.migrationId !in AppliedIds(ledger)
  {
    forall r | r in Backfill(catalog, ledger, version) ensures r.migrationId !in AppliedIds(ledger) {
      if LastVersion(catalog, ledger).None? {
        RecordsHaveCatalogIds(catalog, version, r);
      }
    }
  }

  /** With unique catalog ids, the backfill's keys are unique. */
  lemma {:induction false} BackfillKeysUnique(catalog: seq<Descriptor>, ledger: seq<Record>, version: string)
    requires DistinctIds(catalog)
    ensures UniqueKeys(Backfill(catalog, ledger, version))
  {
    var all := Records(catalog, version);
    assert NoDuplicates(all);
    var backfill := Backfill(catalog, ledger, version);
    match LastVersion(catalog, ledger)
    case None =>
    case Some(last) =>
      var applied := AppliedIds(ledger);
      FilterNoDuplicates(all, (r: Record) => Compare(r.Sort(), last.Sort()) <= 0 && r.migrationId !in applied);
      forall i, j | 0 <= i < j < |backfill| ensures backfill[i].migrationId != backfill[j].migrationId {
        assert backfill[i] in all && backfill[j] in all;
        RecordsHaveCatalogIds(catalog, version, backfill[i]);
        RecordsHaveCatalogIds(catalog, version, backfill[j]);
      }
  }

  /** Once the backfill has been written, computing it again selects nothing. */
  lemma {:induction false} BackfillIdempotent(catalog: seq<Descriptor>, ledger: seq<Record>, version: string)
    ensures Backfill(catalog, Discard(catalog, ledger, version), version) == []
  {
    var backfill := Backfill(catalog, ledger, version);
    var after := Discard(catalog, ledger, version);
    if |backfill| > 0 {
      assert after == ledger + backfill;
      var again := Backfill(catalog, after, version);
      var last' := LastVersion(catalog, after);
      match LastVersion(catalog, ledger)
      case None =>
        RecordsHaveCatalogIds(catalog, version, backfill[0]);
        assert backfill[0] in after;
        assert last'.Some?;
        assert forall r :: r in Records(catalog, version) ==> r.migrationId in AppliedIds(after);
        NoMembersIsEmpty(again);
      case Some(last) =>
        assert last in after;
        assert last'.Some?;
        assert Compare(last.Sort(), last'.value.Sort()) <= 0;
        assert Compare(last'.value.Sort(), last.Sort()) <= 0 by {
          if last'.value !in ledger {
            assert last'.value in backfill;
          }
        }
        CompareFlip(last.Sort(), last'.value.Sort());
        assert last.Sort() == last'.value.Sort();
        forall r | r in Records(catalog, version) && Compare(r.Sort(), last.Sort()) <= 0
          ensures r.migrationId in AppliedIds(after)
        {
          if r.migrationId !in AppliedIds(ledger) {
            assert r in backfill;
          }
        }
        NoMembersIsEmpty(again);
    }
  }

  /** A sequence without members is empty. */
  lemma {:induction false} NoMembersIsEmpty<T>(s: seq<T>)
    ensures (forall x :: x !in s) ==> s == []
  {
    if |s| > 0 {
      assert s[0] in s;
    }
  }
}

=== FILE: seqs.dfy ===
/** The LINQ `Where` of the source, on sequences. */
module Seqs {

  /** The elements of `s` that satisfy `p`, in their original order. */
  function Filter<T(!new)>(s: seq<T>, p: T -> bool): (r: seq<T>)
    ensures |r| <= |s|
    ensures forall x :: x in r <==> x in s && p(x)
    ensures forall i :: 0 <= i < |r| ==> p(r[i])
  {
    if |s| == 0 then []
    else
      assert s == [s[0]] + s[1..];
      if p(s[0]) then [s[0]] + Filter(s[1..], p) else Filter(s[1..], p)
  }

  /** Each element keeps its multiplicity when it passes the filter and
      disappears otherwise. */
  lemma {:induction false} FilterCount<T(!new)>(s: seq<T>, p: T -> bool)
    ensures forall x :: multiset(Filter(s, p))[x] == if p(x) then multiset(s)[x] else 0
  {
    if |s| > 0 {
      assert s == [s[0]] + s[1..];
      FilterCount(s[1..], p);
    }
  }

  /** No element occurs twice. */
  predicate NoDuplicates<T(==)>(s: seq<T>)
  {
    forall i, j :: 0 <= i < j < |s| ==> s[i] != s[j]
  }

  /** Filtering a sequence without duplicates leaves none. */
  lemma {:induction false} FilterNoDuplicates<T(!new)>(s: seq<T>, p: T -> bool)
    requires NoDuplicates(s)
    ensures NoDuplicates(Filter(s, p))
  {
    if |s| > 0 {
      assert s == [s[0]] + s[1..];
      assert NoDuplicates(s[1..]);
      FilterNoDuplicates(s[1..], p);
      assert s[0] !in s[1..];
    }
  }
}

=== FILE: startup.dfy ===
/**
 The startup entry point: apply the pending migrations when the ledger
 already holds entries, then backfill the ledger.
 */
module Startup {
  import opened Ordinal
  import opened History
  import opened Catalog
  import opened Reconcile
  import opened Apply

  /** How startup ends: normally, or with the `MigrationException` of the
      apply pass, which skips the backfill step. A halt names the failing
      migration and its position in the pending batch. */
  datatype StartupResult =
    | Finished(ledger: seq<Record>, calls: seq<string>)
    | Halted(ledger: seq<Record>, calls: seq<string>, failedId: string, failedAt: nat)

  /** Position k of the pending batch holds its first fatal migration. */
  predicate FirstFatalAt(pending: seq<Descriptor>, succeeds: Executor, k: int)
  {
    && 0 <= k < |pending|
    && Fatal(pending[k], succeeds)
    && forall i :: 0 <= i < k ==> !Fatal(pending[i], succeeds)
  }

  /** A halt at the first fatal pending migration `k`, named `id`: the
      executor was called up to and including it, and the ledger holds the
      entries of the pending migrations before it. */
  predicate HaltedAtFirstFatal(pending: seq<Descriptor>, ledger: seq<Record>, succeeds: Executor, version: string,
                               calls: seq<string>, after: seq<Record>, k: int, id: string)
  {
    && FirstFatalAt(pending, succeeds, k)
    && pending[k].id == id
    && calls == ExecutorCalls(pending[..k + 1])
    && after == ledger + Records(pending[..k], version)
  }

  /** The pending batch ran to the end, then the backfill step: the executor
      was called for the batch, its entries follow the old ones, and exactly
      the backfill selection on that ledger follows them. */
  predicate BatchThenBackfill(catalog: seq<Descriptor>, ledger: seq<Record>, pending: seq<Descriptor>,
                              calls: seq<string>, after: seq<Record>, version: string)
  {
    && calls == ExecutorCalls(pending)
    && |ledger| + |pending| <= |after|
    && after[..|ledger| + |pending|] == ledger + Records(pending, version)
    && after[|ledger| + |pending|..] == Backfill(catalog, ledger + Records(pending, version), version)
  }

  /** The apply pass, which runs only when the ledger is not empty. */
  function ApplyPass(catalog: seq<Descriptor>, ledger: seq<Record>, succeeds: Executor, version: string): (r: BatchResult)
    ensures |ledger| == 0 ==> r == Completed(ledger, [], [])
    ensures r.Completed? <==>
      |ledger| == 0 || forall d :: d in Pending(catalog, ledger) ==> !Fatal(d, succeeds)
    ensures r.Aborted? ==>
      && |ledger| > 0
      && r.failedAt < |Pending(catalog, ledger)|
      && Fatal(Pending(catalog, ledger)[r.failedAt], succeeds)
      && forall i :: 0 <= i < r.failedAt ==> !Fatal(Pending(catalog, ledger)[i], succeeds)
    ensures |ledger| <= |r.ledger| && r.ledger[..|ledger|] == ledger
    ensures r.Completed? && |ledger| > 0 ==>
      var pending := Pending(catalog, ledger);
      && r.ledger == ledger + Records(pending, version)
      && r.calls == ExecutorCalls(pending)
      && r.written == ForcedRecords(pending, succeeds, version)
    ensures r.Aborted? ==>
      var pending := Pending(catalog, ledger);
      && r.ledger == ledger + Records(pending[..r.failedAt], version)
      && r.calls == ExecutorCalls(pending[..r.failedAt + 1])
      && r.written == ForcedRecords(pending[..r.failedAt], succeeds, version)
  {
    if |ledger| > 0 then
      var pending := Pending(catalog, ledger);
      BatchEffects(pending, ledger, succeeds, version);
      ApplyBatch(pending, ledger, succeeds, version)
    else Completed(ledger, [], [])
  }

  /** `StartupInitMigrationsAsync`. */
  function Startup(catalog: seq<Descriptor>, ledger: seq<Record>, succeeds: Executor, version: string): (r: StartupResult)
    ensures |ledger| == 0 ==> r == Finished(Records(catalog, version), [])
    ensures r.Finished? <==>
      |ledger| == 0 || forall d :: d in Pending(catalog, ledger) ==> !Fatal(d, succeeds)
    ensures r.Halted? ==>
      && |ledger| > 0
      && HaltedAtFirstFatal(Pending(catalog, ledger), ledger, succeeds, version, r.calls, r.ledger, r.failedAt, r.failedId)
    ensures |ledger| <= |r.ledger| && r.ledger[..|ledger|] == ledger
    ensures r.Finished? ==> Backfill(catalog, r.ledger, version) == []
    ensures r.Finished? && |ledger| > 0 ==>
      BatchThenBackfill(catalog, ledger, Pending(catalog, ledger), r.calls, r.ledger, version)
  {
    var pass := ApplyPass(catalog, ledger, succeeds, version);
    var pending := Pending(catalog, ledger);
    if pass.Aborted? then
      assert pending[pass.failedAt] in pending;
      assert HaltedAtFirstFatal(pending, ledger, succeeds, version, pass.calls, pass.ledger, pass.failedAt, pending[pass.failedAt].id);
      Halted(pass.ledger, pass.calls, pending[pass.failedAt].id, pass.failedAt)
    else
      CompletedPassThenBackfill(catalog, ledger, pending, pass.ledger, pass.calls, version);
      Finished(Discard(catalog, pass.ledger, version), pass.calls)
  }

  /** After an apply pass that completes with ledger `l` and calls `c`, the
      backfill step keeps the old entries first, then the pass's entries, and
      leaves nothing to backfill. */
  lemma {:induction false} CompletedPassThenBackfill(catalog: seq<Descriptor>, ledger: seq<Record>, pending: seq<Descriptor>,
                                                     l: seq<Record>, c: seq<string>, version: string)
    requires |ledger| <= |l| && l[..|ledger|] == ledger
    requires |ledger| == 0 ==> l == ledger && c == []
    requires |ledger| > 0 ==> l == ledger + Records(pending, version) && c == ExecutorCalls(pending)
    ensures
      var after := Discard(catalog, l, version);
      && (|ledger| == 0 ==> after == Records(catalog, version) && c == [])
      && |ledger| <= |after| && after[..|ledger|] == ledger
      && Backfill(catalog, after, version) == []
      && (|ledger| > 0 ==> BatchThenBackfill(catalog, ledger, pending, c, after, version))
  {
    var after := Discard(catalog, l, version);
    assert |ledger| == 0 ==> after == Records(catalog, version) by {
      FreshLedgerBackfill(catalog, l, version);
    }
    assert after[..|ledger|] == ledger by {
      ExtensionSplit(ledger, l, after);
    }
    assert Backfill(catalog, after, version) == [] by {
      BackfillIdempotent(catalog, l, version);
    }
    if |ledger| > 0 {
      var rs := Records(pending, version);
      assert |rs| == |pending|;
      AppendedPrefix(ledger, rs, after);
      assert after[|ledger| + |pending|..] == Backfill(catalog, l, version) by {
        DiscardSuffix(catalog, l, version);
      }
    }
  }

  /** What the backfill step appends is exactly the backfill selection. */
  lemma {:induction false} DiscardSuffix(catalog: seq<Descriptor>, ledger: seq<Record>, version: string)
    ensures |ledger| <= |Discard(catalog, ledger, version)|
    ensures Discard(catalog, ledger, version)[|ledger|..] == Backfill(catalog, ledger, version)
  {
  }

  /** A sequence that starts with `ledger + rs` starts with `ledger` and
      then `rs`. */
  lemma {:induction false} AppendedPrefix(ledger: seq<Record>, rs: seq<Record>, after: seq<Record>)
    requires |ledger + rs| <= |after| && after[..|ledger + rs|] == ledger + rs
    ensures |ledger| + |rs| <= |after| && after[..|ledger| + |rs|] == ledger + rs
  {
  }

  /** On an empty ledger the backfill step records the whole catalog. */
  lemma {:induction false} FreshLedgerBackfill(catalog: seq<Descriptor>, ledger: seq<Record>, version: string)
    ensures |ledger| == 0 ==> Discard(catalog, ledger, version) == Records(catalog, version)
  {
    if |ledger| == 0 {
      assert LastVersion(catalog, ledger).None?;
      if |Records(catalog, version)| == 0 {
        assert Records(catalog, version) == [];
      }
    }
  }

  /** A startup that finishes is the apply pass, completed, followed by the
      backfill step. */
  lemma {:induction false} FinishedAfterPass(catalog: seq<Descriptor>, ledger: seq<Record>, succeeds: Executor, version: string)
    requires Startup(catalog, ledger, succeeds, version).Finished?
    ensures
      var pass := ApplyPass(catalog, ledger, succeeds, version);
      && pass.Completed?
      && Startup(catalog, ledger, succeeds, version).ledger == Discard(catalog, pass.ledger, version)
  {
  }

  /** After a startup that finishes, every catalog migration is in the ledger:
      applied, recorded as skipped, or backfilled. This needs the naming
      convention only when the ledger was not empty. */
  lemma {:induction false} StartupCoversCatalog(catalog: seq<Descriptor>, ledger: seq<Record>, succeeds: Executor, version: string)
    requires |ledger| == 0 || SortMonotone(catalog)
    requires Startup(catalog, ledger, succeeds, version).Finished?
    ensures forall d :: d in catalog ==> d.id in AppliedIds(Startup(catalog, ledger, succeeds, version).ledger)
  {
    var r := Startup(catalog, ledger, succeeds, version);
    if |ledger| == 0 {
      CatalogRecordsCover(catalog, version);
    } else {
      var pending := Pending(catalog, ledger);
      var l := ApplyPass(catalog, ledger, succeeds, version).ledger;
      assert r.ledger == Discard(catalog, l, version) && l == ledger + Records(pending, version) by {
        FinishedAfterPass(catalog, ledger, succeeds, version);
      }
      forall d | d in catalog ensures d.id in AppliedIds(r.ledger) {
        CoveredAfterApply(catalog, ledger, pending, l, version, d);
      }
    }
  }

  /** Why the convention is needed: with `2023_a` applied and `20230_b` not,
      a startup does nothing at all, so `20230_b` is never recorded, on this
      startup or any later one. */
  lemma {:induction false} NewerNeverRecorded(catalog: seq<Descriptor>, ledger: seq<Record>, succeeds: Executor, version: string)
    requires catalog == [Descriptor("2023_a", false, false), Descriptor("20230_b", false, false)]
    requires ledger == [Record("2023_a", "8.0.0")]
    ensures Startup(catalog, ledger, succeeds, version) == Finished(ledger, [])
    ensures catalog[1].id !in AppliedIds(Startup(catalog, ledger, succeeds, version).ledger)
  {
    NewerNeitherPendingNorBackfilled(catalog, ledger, version);
    var pass := ApplyPass(catalog, ledger, succeeds, version);
    assert pass.Completed? && pass.ledger == ledger && pass.calls == [] by {
      assert Records([], version) == [];
    }
  }

  /** The catalog's own entries record every catalog migration. */
  lemma {:induction false} CatalogRecordsCover(catalog: seq<Descriptor>, version: string)
    ensures forall d :: d in catalog ==> d.id in AppliedIds(Records(catalog, version))
  {
    var rs := Records(catalog, version);
    forall d | d in catalog ensures d.id in AppliedIds(rs) {
      var i :| 0 <= i < |catalog| && catalog[i] == d;
      assert rs[i] in rs;
    }
  }

  /** One migration of a non-empty ledger's startup: it ends up recorded by
      the apply pass or by the backfill that follows it. */
  lemma {:induction false} CoveredAfterApply(catalog: seq<Descriptor>, ledger: seq<Record>, pending: seq<Descriptor>,
                          l: seq<Record>, version: string, d: Descriptor)
    requires SortMonotone(catalog)
    requires pending == Pending(catalog, ledger)
    requires l == ledger + Records(pending, version)
    requires d in catalog
    ensures d.id in AppliedIds(Discard(catalog, l, version))
  {
    var after := Discard(catalog, l, version);
    assert forall x :: x in l ==> x in after;
    if d in pending {
      var i :| 0 <= i < |pending| && pending[i] == d;
      assert l[|ledger| + i] == Record(d.id, version);
      assert l[|ledger| + i] in l;
    } else if d.id !in AppliedIds(l) {
      BackfillBelowBaseline(catalog, ledger, pending, l, version, d);
    }
  }

  /** A migration the apply pass left out and that is still missing lies at
      or below the new baseline, so the backfill records it. */
  lemma {:induction false} BackfillBelowBaseline(catalog: seq<Descriptor>, ledger: seq<Record>, pending: seq<Descriptor>,
                              l: seq<Record>, version: string, d: Descriptor)
    requires SortMonotone(catalog)
    requires pending == Pending(catalog, ledger)
    requires l == ledger + Records(pending, version)
    requires d in catalog && d !in pending && d.id !in AppliedIds(l)
    ensures Record(d.id, version) in Discard(catalog, l, version)
  {
    var last := LastVersion(catalog, ledger).value;
    assert last in l;
    var last' := LastVersion(catalog, l).value;
    var i :| 0 <= i < |catalog| && catalog[i] == d;
    assert Compare(SortKey(d.id), last.Sort()) < 0 by {
      IdPosition(catalog, last.migrationId);
      var j :| 0 <= j < |catalog| && catalog[j].id == last.migrationId;
      assert d.id != last.migrationId;
      assert Compare(d.id, last.migrationId) != 0;
      assert Compare(catalog[i].id, catalog[j].id) < 0;
    }
    assert Compare(last.Sort(), last'.Sort()) <= 0;
    StrictThenWeak(SortKey(d.id), last.Sort(), last'.Sort());
    assert Record(d.id, version) == Records(catalog, version)[i];
  }

  /** With unique catalog ids and the naming convention, startup keeps the
      ledger's key unique, however it ends. */
  lemma {:induction false} StartupKeepsKeysUnique(catalog: seq<Descriptor>, ledger: seq<Record>, succeeds: Executor, version: string)
    requires UniqueKeys(ledger)
    requires DistinctIds(catalog)
    requires SortMonotone(catalog)
    ensures UniqueKeys(Startup(catalog, ledger, succeeds, version).ledger)
  {
    var pass := ApplyPass(catalog, ledger, succeeds, version);
    if |ledger| > 0 {
      var pending := Pending(catalog, ledger);
      PendingWithinCatalog(catalog, ledger);
      SubMultisetKeepsDistinctIds(catalog, pending);
      PendingIsUnapplied(catalog, ledger);
      BatchKeepsKeysUnique(pending, ledger, succeeds, version);
    }
    if pass.Completed? {
      BackfillKeysUnique(catalog, pass.ledger, version);
      BackfillIsFresh(catalog, pass.ledger, version);
      var backfill := Backfill(catalog, pass.ledger, version);
      if |backfill| > 0 {
        UniqueKeysAppend(pass.ledger, backfill);
      }
    }
  }

  /** A second startup right after one that finished does nothing: no
      executor call and no ledger write. */
  lemma {:induction false} StartupIsIdempotent(catalog: seq<Descriptor>, ledger: seq<Record>, succeeds: Executor, version: string)
    requires SortMonotone(catalog)
    requires Startup(catalog, ledger, succeeds, version).Finished?
    ensures
      var first := Startup(catalog, ledger, succeeds, version);
      Startup(catalog, first.ledger, succeeds, version) == Finished(first.ledger, [])
  {
    var first := Startup(catalog, ledger, succeeds, version);
    StartupCoversCatalog(catalog, ledger, succeeds, version);
    CoveredStartupIsQuiet(catalog, first.ledger, succeeds, version);
  }

  /** A ledger that already covers the catalog makes startup a no-op. */
  lemma {:induction false} CoveredStartupIsQuiet(catalog: seq<Descriptor>, ledger: seq<Record>, succeeds: Executor, version: string)
    requires SortMonotone(catalog)
    requires forall d :: d in catalog ==> d.id in AppliedIds(ledger)
    ensures Startup(catalog, ledger, succeeds, version) == Finished(ledger, [])
  {
    assert Pending(catalog, ledger) == [] by {
      PendingIsUnapplied(catalog, ledger);
      NoMembersIsEmpty(Pending(catalog, ledger));
    }
    assert Backfill(catalog, ledger, version) == [] by {
      CoveredLeavesNoBackfill(catalog, ledger, version);
    }
    FreshLedgerBackfill(catalog, ledger, version);
  }

  /** A ledger that already covers the catalog has nothing to backfill. */
  lemma {:induction false} CoveredLeavesNoBackfill(catalog: seq<Descriptor>, ledger: seq<Record>, version: string)
    requires forall d :: d in catalog ==> d.id in AppliedIds(ledger)
    ensures Backfill(catalog, ledger, version) == []
  {
    BackfillIsFresh(catalog, ledger, version);
    forall x | x in Records(catalog, version) ensures x.migrationId in AppliedIds(ledger) {
      var i :| 0 <= i < |catalog| && Records(catalog, version)[i] == x;
      assert catalog[i] in catalog;
    }
    NoMembersIsEmpty(Backfill(catalog, ledger, version));
  }

  /** Startup appends only entries of catalog migrations, stamped with the
      executor's version, however it ends. */
  lemma {:induction false} StartupAppendsCatalogEntries(catalog: seq<Descriptor>, ledger: seq<Record>, succeeds: Executor, version: string)
    ensures
      var r := Startup(catalog, ledger, succeeds, version);
      forall x :: x in r.ledger[|ledger|..] ==> x in Records(catalog, version)
  {
    var r := Startup(catalog, ledger, succeeds, version);
    var pass := ApplyPass(catalog, ledger, succeeds, version);
    ApplyPassAppendsCatalogEntries(catalog, ledger, succeeds, version);
    if pass.Completed? {
      var after := Discard(catalog, pass.ledger, version);
      assert r.ledger == after;
      DiscardAppendsCatalogEntries(catalog, pass.ledger, version);
      ExtensionSplit(ledger, pass.ledger, after);
    }
  }

  /** The apply pass appends only entries of catalog migrations. */
  lemma {:induction false} ApplyPassAppendsCatalogEntries(catalog: seq<Descriptor>, ledger: seq<Record>, succeeds: Executor, version: string)
    ensures
      var pass := ApplyPass(catalog, ledger, succeeds, version);
      forall x :: x in pass.ledger[|ledger|..] ==> x in Records(catalog, version)
  {
    if |ledger| > 0 {
      var pending := Pending(catalog, ledger);
      assert ApplyPass(catalog, ledger, succeeds, version) == ApplyBatch(pending, ledger, succeeds, version);
      BatchAppendsOwnEntries(pending, ledger, succeeds, version);
      assert forall d :: d in pending ==> d in catalog;
      RecordsOfSubset(pending, catalog, version);
    }
  }

  /** The backfill step appends only entries of catalog migrations. */
  lemma {:induction false} DiscardAppendsCatalogEntries(catalog: seq<Descriptor>, ledger: seq<Record>, version: string)
    ensures forall x :: x in Discard(catalog, ledger, version)[|ledger|..] ==> x in Records(catalog, version)
  {
    var backfill := Backfill(catalog, ledger, version);
    var after := Discard(catalog, ledger, version);
    assert forall x :: x in backfill ==> x in Records(catalog, version);
    if |backfill| > 0 {
      assert after[|ledger|..] == backfill;
    }
  }

  /** What a two-step extension of a ledger appends is what each step appends. */
  lemma {:induction false} ExtensionSplit(a: seq<Record>, b: seq<Record>, c: seq<Record>)
    requires |a| <= |b| && b[..|a|] == a
    requires |b| <= |c| && c[..|b|] == b
    ensures c[..|a|] == a
    ensures forall x :: x in c[|a|..] ==> x in b[|a|..] || x in c[|b|..]
  {
    assert c[..|a|] == c[..|b|][..|a|];
    assert c[|a|..] == b[|a|..] + c[|b|..];
  }

  /** With catalog ids and the version within the column widths, startup
      keeps a well-formed ledger well-formed. */
  lemma {:induction false} StartupKeepsWellFormed(catalog: seq<Descriptor>, ledger: seq<Record>, succeeds: Executor, version: string)
    requires forall d :: d in catalog ==> |d.id| <= MaxMigrationIdLength
    requires |version| <= MaxProductVersionLength
    requires forall x :: x in ledger ==> x.WellFormed()
    ensures forall x :: x in Startup(catalog, ledger, succeeds, version).ledger ==> x.WellFormed()
  {
    StartupAppendsCatalogEntries(catalog, ledger, succeeds, version);
    ExtensionWellFormed(catalog, version, ledger, Startup(catalog, ledger, succeeds, version).ledger);
  }

  /** Extending a well-formed ledger with entries of fitting catalog
      migrations keeps it well-formed. */
  lemma {:induction false} ExtensionWellFormed(catalog: seq<Descriptor>, version: string, ledger: seq<Record>, l: seq<Record>)
    requires forall d :: d in catalog ==> |d.id| <= MaxMigrationIdLength
    requires |version| <= MaxProductVersionLength
    requires forall x :: x in ledger ==> x.WellFormed()
    requires |ledger| <= |l| && l[..|ledger|] == ledger
    requires forall x :: x in l[|ledger|..] ==> x in Records(catalog, version)
    ensures forall x :: x in l ==> x.WellFormed()
  {
    forall x | x in l ensures x.WellFormed() {
      var i :| 0 <= i < |l| && l[i] == x;
      if i >= |ledger| {
        assert l[|ledger|..][i - |ledger|] == x;
        assert x in Records(catalog, version);
        var j :| 0 <= j < |catalog| && Records(catalog, version)[j] == x;
        assert catalog[j] in catalog;
      } else {
        assert l[..|ledger|][i] == x;
        assert x in ledger;
      }
    }
  }
}
